=== FILE: README.md ===
# quake_fetcher ingestion core, modelled in Dafny

This project models the ingestion pipeline of quake_fetcher, an earthquake
scraper. A scraper process reads the table of recent earthquakes from a web
page and turns each row into a candidate. It posts the candidates to a
server. The server stores only the new ones, and it reports whether the
latest stored earthquake is recent enough.

The model is written as pure functions over immutable values:

- `Text` models `str.strip()`. Whitespace is the set of characters for which
  Python's `str.isspace()` holds.
- `Dates` models `datetime.strptime(s, '%Y-%m-%d %H:%M:%S')` as a partial
  function. A date becomes an integer: seconds since 0001-01-01 00:00:00 in
  the proleptic Gregorian calendar, on the scale of `datetime.toordinal()`.
  The module proves that the parser and the formatter are inverses. It also
  proves that comparing seconds is the same as comparing `datetime` values
  field by field.
- `Payload` holds the candidate record and the JSON object keys the two
  processes share.
- `Scraper` models `Scraper.fetch_quake_data` after the HTTP request. The
  parsed table arrives as rows of cell texts, together with the response's
  `ok` flag.
- `Store` replaces the `Earthquakes` table with a sequence of rows in
  insertion order. It defines the duplicate key `(date, latitude,
  longitude, magnitude)` and `get_latest_earthquake`.
- `Ingest` models `Earthquakes.create_from_json` and
  `DatabaseManager.add_earthquake`. The watermark is read once. The batch
  either commits as a whole or rolls back as a whole. A missing key, an
  unparsable date and a value too long for its column are each an
  `IngestError`; the other ways the server can fail are listed under
  "Left out".
- `Freshness` models `DatabaseManager.last_quake_status`.
- `Pipeline` connects the scraper's output to the server's ingestion, one
  cycle at a time.
- `Scenarios` states worked ingestion examples for all inputs of the
  given shape.

Modelling decisions:

- The server sees each candidate as a string-to-string map. A missing key is
  therefore a real error path (`KeyError`), and it rolls the batch back.
- The duplicate lookup (Server.py:58-63) runs against the table including
  rows staged earlier in the same batch. This is what the default session
  autoflush makes the query see. So a batch that repeats a new earthquake
  adds it only once.
- The order of the lookups follows the source. A candidate that the
  watermark skips needs only a `Date` key. A duplicate needs no `Depth(Km)`,
  `Type` or `Location` key.
- The `type` column is `String(4)` and the `place` column is `String(250)`.
  The model treats every longer value as a database error when the staged
  rows are written, so the batch rolls back. PostgreSQL truncates instead
  when the excess characters are all spaces; see "Left out".
- `now` and the staleness window are parameters of `LastQuakeStatus`, on
  the same seconds scale as stored dates. `now` is the already shifted
  clock reading (`utcnow() + 3h`).
- A row with fewer than seven cells raises `IndexError` in the scraper and
  fails the whole fetch (`ShortRow`). This is what the code does.

## Model

| member | source | states |
|---|---|---|
| Text.Trim | Scraper.py:42-48 | the stripped value neither starts nor ends with whitespace |
| Text.TrimIsSlice | Scraper.py:42-48 | stripping removes only whitespace: the result is a slice of the cell text with an all-whitespace prefix and suffix cut off |
| Text.TrimUnique | Scraper.py:42-48 | any split of a text into whitespace, a trimmed middle and whitespace has exactly the stripped value as its middle |
| Text.TrimIdempotent | Scraper.py:42-48 | stripping an already stripped value changes nothing |
| Dates.Parse | Server.py:54-55 | a parsed date is always a valid calendar date and time (years 1-9999, real month lengths with leap years, no leap seconds); anything else is a parse failure |
| Dates.ParseFormat | Server.py:55 | every valid date written in the `%Y-%m-%d %H:%M:%S` layout parses back to itself |
| Dates.FormatParse | Server.py:55 | every accepted text is exactly the layout of the date it parses to |
| Dates.ParseSecondsInjective | Server.py:54-63 | two date texts in the zero-padded layout that give the same `datetime` are the same text |
| Dates.SecondsOrder | Server.py:98 | for valid dates, fewer seconds means earlier in Python's field-by-field order, and equal seconds means the same date |
| Scraper.RowCandidateFields | Scraper.py:40-49 | field k of the candidate is the stripped text of cell k, for the columns Date, Latitude, Longitude, Depth(Km), Type, Magnitude, Location |
| Scraper.MapRows | Scraper.py:39-50 | a successful mapping saw only rows of seven or more cells, and maps them one-to-one and in order to candidates |
| Scraper.MapRowsFailsAtFirstShort | Scraper.py:39-50 | a failed mapping reports a row with fewer than seven cells, and every row before it had seven or more |
| Scraper.FetchQuakeData | Scraper.py:28-54 | a response that is not ok gives `None`; an ok response gives a list (never `None`) unless the fetch fails, with the header row dropped and one candidate per later row in table order, field k the stripped text of cell k; the fetch fails exactly when some later row has fewer than seven cells, and it names the first such row |
| Scraper.FetchedFieldsTrimmed | Scraper.py:42-48 | no field of a fetched candidate has leading or trailing whitespace |
| Store.Latest | Server.py:119-124 | no row for an empty table; otherwise a stored row whose date no other row exceeds |
| Store.Watermark | Server.py:92-93 | the watermark is absent exactly for an empty table, and otherwise it is the greatest stored date |
| Store.WatermarkMonotone | Server.py:92-93 | appending rows never lowers the watermark |
| Store.HasKeyAppend | Server.py:58-63 | after a row is appended, the duplicate lookup finds exactly the old keys plus the new row's key |
| Ingest.CandidateDate | Server.py:96-97 | reading a candidate's date succeeds exactly when it has a `Date` key whose text parses |
| Ingest.CandidateKey | Server.py:54-63 | the lookup key exists exactly when the date parses and Latitude, Longitude and Magnitude are present, and it is built from those values |
| Ingest.Record | Server.py:67-75 | a row can be built exactly when the key can be read and Depth(Km), Type and Location are present, and the row's key is the candidate's lookup key |
| Ingest.RecordFields | Server.py:67-75 | a built row takes its date from the parsed `Date`, latitude, longitude and magnitude as given, depth from `Depth(Km)`, type from `Type` and place from `Location` |
| Ingest.CreateFromJson | Server.py:45-80 | a candidate whose key is stored leaves the table unchanged; otherwise exactly its row is appended; the call fails only on an unreadable key or a missing column of a new row |
| Ingest.Reconcile | Server.py:94-100 | a staged batch only appends rows, and every appended row has a key that no earlier row has |
| Ingest.AddEarthquake | Server.py:87-110 | the table only grows; a rollback leaves it unchanged; a commit writes only rows that fit their columns; no key is ever stored twice |
| Ingest.ReconcileCovers | Server.py:95-100 | after staging, every candidate's date parsed and every candidate newer than the watermark has its key in the table |
| Ingest.ReconcileProvenance | Server.py:58-100 | every staged row is newer than the watermark and is the row built from a candidate that reached the row construction, that is, the first candidate passing the filter with its key, since a later repeat finds the staged row |
| Ingest.ReconcileAdded | Server.py:94-100 | `new_data_added` holds exactly when some candidate passed the watermark filter, even if it turned out to be a duplicate |
| Ingest.ReconcileWellFormed | Server.py:95-100 | a batch of complete candidates with parsable dates is always staged |
| Ingest.ReconcileNothingPasses | Server.py:98-99 | when no candidate is newer than the watermark, nothing is staged and no new data is reported |
| Ingest.AddEarthquakeCommitted | Server.py:91-101 | on commit, the watermark read before the loop decides every candidate, every candidate newer than it is stored, every added row is the row of the first passing candidate with its key, and the flag reports whether any candidate was newer |
| Ingest.AddEarthquakeSkipsKnown | Server.py:58-65 | a key already in the table is never added again |
| Ingest.AddEarthquakeCommitsWellFormed | Server.py:91-101 | complete candidates with parsable dates and values that fit their columns always commit |
| Ingest.AddEarthquakeRollsBack | Server.py:96-97 | one candidate without a parsable date rolls the whole batch back, and the table is left as it was |
| Ingest.ReconcileBuildsNewRows | Server.py:58-76 | in a staged batch, every candidate that passed the filter with a key neither stored nor used by an earlier passing candidate had `Depth(Km)`, `Type` and `Location` |
| Ingest.AddEarthquakeBuildsNewRows | Server.py:65-76 | on commit, every candidate that reached the row construction had all of `Depth(Km)`, `Type` and `Location` |
| Ingest.AddEarthquakeRollsBackOnKey | Server.py:58-63 | a candidate that passes the filter but lacks `Latitude`, `Longitude` or `Magnitude` rolls the whole batch back, leaving the table as it was |
| Ingest.AddEarthquakeRollsBackOnColumn | Server.py:65-76 | a candidate that reaches the row construction without `Depth(Km)`, `Type` or `Location` rolls the whole batch back, leaving the table as it was |
| Ingest.AddEarthquakeIdempotent | Server.py:92-101 | ingesting a just-committed batch again changes nothing and reports no new data |
| Ingest.AddEarthquakeWatermark | Server.py:92-93 | an ingestion never moves the watermark backwards |
| Freshness.LastQuakeStatus | Server.py:127-149 | an empty table gives no verdict; the verdict is stale exactly when every stored earthquake is older than the window; a fresh verdict carries a latest stored earthquake that is within the window |
| Freshness.FreshnessBoundary | Server.py:138 | the comparison is strict: with latest date t, `now = t + window` is still fresh and `t + window + 1` is stale |
| Pipeline.Batch | Scraper.py:41-50 | the posted objects are the candidates' dictionaries, one per candidate and in order |
| Pipeline.ScrapedRecord | Server.py:67-75 | a scraped candidate has every key, so its row fails only on the date, and each column comes from the candidate field of the same name |
| Pipeline.ScrapedBatchCommits | Server.py:91-110 | a scraped batch with an unparsable date rolls back; one whose dates all parse and whose values fit their columns commits |
| Pipeline.Cycle | Scraper.py:64-69 | one fetch-and-post cycle only grows the table and keeps keys unique; a not-ok page ends with no data and a failed fetch ends with that failure, both leaving the table unchanged; a fetched list is posted as its batch of dictionaries and the outcome is exactly `add_earthquake` on that batch |
| Pipeline.CycleShortRow | Scraper.py:39-50 | an ok page with a row of fewer than seven cells after the header ends the cycle in a failed fetch naming the first such row, with the table unchanged |
| Scenarios.ReconcileAllNew | Server.py:95-101 | with no watermark, complete candidates whose keys are new and pairwise distinct are all appended in order |
| Scenarios.IntoEmpty | Server.py:87-101 | scraped candidates with parsable dates, fitting values and pairwise different date, latitude, longitude or magnitude that reach an empty table are all stored, in order, and new data is reported exactly when the batch is non-empty |
| Scenarios.EmptyTableCommits | Server.py:91-101 | an empty table takes a batch of complete, fitting candidates with pairwise distinct keys exactly as it is, reporting new data when the batch is not empty |
| Scenarios.DistinctKeys | Server.py:54-63 | scraped candidates whose dates are in the zero-padded layout and that differ in date, latitude, longitude or magnitude get different lookup keys |
| Scenarios.RepeatAndNew | Server.py:92-101 | a table holding one earthquake that receives it again plus a later one ends with exactly those two rows and reports new data |

## Left out

- Dates.Parse: accepts only zero-padded two-digit month, day, hour, minute and second fields, one space between date and time, and ASCII digits. Python's `strptime` also accepts one-digit fields, a day padded with a space instead of a zero (`"2024-01- 5 12:00:00"`), any run of whitespace in place of the space, and other Unicode decimal digits. The scraped page is not modelled closely enough to say which forms it produces.
- Dates.ParseSecondsInjective: holds only for the zero-padded layout the model parses. Python's `strptime` maps `"2024-01-01 1:00:00"`, `"2024-01-01 01:00:00"` and a doubled space to the same `datetime`, so there two different date texts can share a lookup key and the second is skipped as a duplicate. `Scenarios.DistinctKeys` and `Scenarios.IntoEmpty` inherit this restriction.
- Freshness.LastQuakeStatus: `now` is whole seconds. Python compares with microsecond precision, so when the elapsed time is exactly the window plus a fraction of a second, Python reports stale and the model reports fresh.
- Freshness.LastQuakeStatus: the status messages and the photo lookup for a fresh verdict (`APIManager.get_unsplash_photo`) are left out. The lookup is a network call.
- Ingest.CreateFromJson: latitude, longitude, magnitude and depth are compared as the strings received. The real columns are floats, so `"38.10"` and `"38.1"` would match there. A value that is not a number would make the database raise. Float coercion is not modelled.
- Ingest.AddEarthquake: PostgreSQL stores a value longer than its `varchar` column by truncating it when every excess character is a space, and raises only otherwise. The model rolls back on any longer value. A `Type` of `"ML"` followed by three spaces rolls back here but is committed as `"ML  "` there. Scraped values are stripped, so batches built by `Pipeline` are not affected.
- Store.Latest: among rows that share the greatest date, the model picks the earliest stored one. The database query leaves that choice unspecified.
- The surrogate `id` column and the "already recorded with ID" log message are not modelled. A row's identity is its position in the sequence.
- SQLAlchemy configuration, sessions and flushing, and failures of the commit itself other than the column widths are not modelled. The table is an in-memory sequence.
- HTTP requests, BeautifulSoup parsing, the POST in `post_quake_data`, and the JSON encoding and double decoding at the endpoint are I/O plumbing. The table reaches the model as rows of cell texts, and the candidates reach the server as string maps.
- The Flask app, its routes and `render_template`, `get_all_earthquakes`, and the random pick of `home_page` are left out. They are presentation and randomness.
- main.py is left out. It is an infinite polling loop with `time.sleep`. Because of it, an `IndexError` escaping the fetch stops the real process. `Pipeline.Cycle` only reports that outcome.
- The clock read `datetime.utcnow() + timedelta(hours=3)` and the `SCRAPING_TIME_INTERVAL` environment variable become the parameters `now` and `window`.

=== FILE: dates.dfy ===
/** Date handling of the server: `datetime.strptime(s, '%Y-%m-%d %H:%M:%S')`
    and the ordering and subtraction of the resulting `datetime` values.
    A parsed date is represented by its number of seconds since
    0001-01-01 00:00:00 in the proleptic Gregorian calendar (the scale of
    Python's `datetime.toordinal`), so that comparing and subtracting dates
    becomes integer arithmetic. */
module Dates {
  import opened Results

  datatype DateTime = DateTime(year: int, month: int, day: int, hour: int, minute: int, second: int)

  predicate IsLeap(year: int) {
    year % 4 == 0 && (year % 100 != 0 || year % 400 == 0)
  }

  function DaysInYear(year: int): int {
    if IsLeap(year) then 366 else 365
  }

  function DaysInMonth(year: int, month: int): int
    requires 1 <= month <= 12
  {
    if month == 2 then (if IsLeap(year) then 29 else 28)
    else if month == 4 || month == 6 || month == 9 || month == 11 then 30
    else 31
  }

  /** Days of `year` that precede the first of `month`. */
  function DaysBeforeMonth(year: int, month: int): int
    requires 1 <= month <= 12
  {
    [0, 31, 59, 90, 120, 151, 181, 212, 243, 273, 304, 334][month - 1]
      + (if month > 2 && IsLeap(year) then 1 else 0)
  }

  /** Days from 0001-01-01 up to the first of January of `year`. */
  function DaysBeforeYear(year: int): int
    requires year >= 1
  {
    var y := year - 1;
    y * 365 + y / 4 - y / 100 + y / 400
  }

  /** The values `datetime` accepts (years 1 to 9999, no leap seconds). */
  predicate Valid(d: DateTime) {
    && 1 <= d.year <= 9999
    && 1 <= d.month <= 12
    && 1 <= d.day <= DaysInMonth(d.year, d.month)
    && 0 <= d.hour < 24
    && 0 <= d.minute < 60
    && 0 <= d.second < 60
  }

  /** `datetime.toordinal()`: 0001-01-01 is day 1. */
  function Ordinal(d: DateTime): int
    requires Valid(d)
  {
    DaysBeforeYear(d.year) + DaysBeforeMonth(d.year, d.month) + d.day
  }

  /** Seconds elapsed since 0001-01-01 00:00:00. */
  function ToSeconds(d: DateTime): int
    requires Valid(d)
  {
    (Ordinal(d) - 1) * 86400 + d.hour * 3600 + d.minute * 60 + d.second
  }

  /** The order in which Python compares two `datetime` values: field by
      field, most significant first. */
  predicate Before(a: DateTime, b: DateTime) {
    || a.year < b.year
    || (a.year == b.year && a.month < b.month)
    || (a.year == b.year && a.month == b.month && a.day < b.day)
    || (a.year == b.year && a.month == b.month && a.day == b.day && a.hour < b.hour)
    || (a.year == b.year && a.month == b.month && a.day == b.day && a.hour == b.hour
        && a.minute < b.minute)
    || (a.year == b.year && a.month == b.month && a.day == b.day && a.hour == b.hour
        && a.minute == b.minute && a.second < b.second)
  }

  // ---------------------------------------------------------------------
  // Text form

  predicate IsDigit(c: char) {
    '0' <= c <= '9'
  }

  predicate AllDigits(s: string) {
    forall k :: 0 <= k < |s| ==> IsDigit(s[k])
  }

  function DigitChar(n: int): char
    requires 0 <= n < 10
  {
    (n + '0' as int) as char
  }

  /** The decimal value of a string of digits. */
  function Number(s: string): nat
    requires AllDigits(s)
  {
    if |s| == 0 then 0
    else Number(s[..|s| - 1]) * 10 + (s[|s| - 1] as int - '0' as int)
  }

  function Pow10(w: nat): nat {
    if w == 0 then 1 else 10 * Pow10(w - 1)
  }

  /** `n` written with exactly `w` digits, zero-padded on the left. */
  function Pad(n: nat, w: nat): (r: string)
    ensures |r| == w
    ensures AllDigits(r)
  {
    if w == 0 then [] else Pad(n / 10, w - 1) + [DigitChar(n % 10)]
  }

  /** The layout `%Y-%m-%d %H:%M:%S` with every field at full width. */
  function Format(d: DateTime): (r: string)
    requires Valid(d)
  {
    Pad(d.year, 4) + "-" + Pad(d.month, 2) + "-" + Pad(d.day, 2) + " "
      + Pad(d.hour, 2) + ":" + Pad(d.minute, 2) + ":" + Pad(d.second, 2)
  }

  /** `datetime.strptime(s, '%Y-%m-%d %H:%M:%S')`: `None` where Python
      raises `ValueError` (wrong layout, trailing text, or a field out of
      range such as February 30th). */
  function Parse(s: string): (r: Option<DateTime>)
    ensures r.Some? ==> Valid(r.value)
  {
    if |s| != 19 || s[4] != '-' || s[7] != '-' || s[10] != ' ' || s[13] != ':' || s[16] != ':'
    then None
    else if !(AllDigits(s[0..4]) && AllDigits(s[5..7]) && AllDigits(s[8..10])
              && AllDigits(s[11..13]) && AllDigits(s[14..16]) && AllDigits(s[17..19]))
    then None
    else
      var d := DateTime(Number(s[0..4]), Number(s[5..7]), Number(s[8..10]),
                        Number(s[11..13]), Number(s[14..16]), Number(s[17..19]));
      if Valid(d) then Some(d) else None
  }

  /** A date string as the integer the server compares: seconds since
      0001-01-01 00:00:00, or `None` when `strptime` would raise. */
  function ParseSeconds(s: string): Option<int> {
    match Parse(s)
    case None => None
    case Some(d) => Some(ToSeconds(d))
  }

  // ---------------------------------------------------------------------
  // Round trips between text and dates

  lemma {:induction false} NumberPad(n: nat, w: nat)
    requires n < Pow10(w)
    ensures Number(Pad(n, w)) == n
  {
    if w > 0 {
      var p := Pad(n / 10, w - 1);
      assert Pad(n, w)[..w - 1] == p;
      NumberPad(n / 10, w - 1);
    }
  }

  lemma {:induction false} PadNumber(s: string)
    requires AllDigits(s)
    ensures Pad(Number(s), |s|) == s
  {
    if |s| > 0 {
      var t := s[..|s| - 1];
      PadNumber(t);
      var n := Number(s);
      assert n / 10 == Number(t);
      assert DigitChar(n % 10) == s[|s| - 1];
      assert s == t + [s[|s| - 1]];
    }
  }

  /** Every valid date survives formatting and re-parsing. */
  lemma ParseFormat(d: DateTime)
    requires Valid(d)
    ensures Parse(Format(d)) == Some(d)
  {
    var s := Format(d);
    assert s[0..4] == Pad(d.year, 4);
    assert s[5..7] == Pad(d.month, 2);
    assert s[8..10] == Pad(d.day, 2);
    assert s[11..13] == Pad(d.hour, 2);
    assert s[14..16] == Pad(d.minute, 2);
    assert s[17..19] == Pad(d.second, 2);
    NumberPad(d.year, 4);
    NumberPad(d.month, 2);
    NumberPad(d.day, 2);
    NumberPad(d.hour, 2);
    NumberPad(d.minute, 2);
    NumberPad(d.second, 2);
  }

  /** The parser accepts only the full-width layout: every string it
      accepts is the formatting of what it returns. */
  lemma FormatParse(s: string)
    requires Parse(s).Some?
    ensures Format(Parse(s).value) == s
  {
    var d := Parse(s).value;
    assert d == DateTime(Number(s[0..4]), Number(s[5..7]), Number(s[8..10]),
                         Number(s[11..13]), Number(s[14..16]), Number(s[17..19]));
    PadNumber(s[0..4]);
    PadNumber(s[5..7]);
    PadNumber(s[8..10]);
    PadNumber(s[11..13]);
    PadNumber(s[14..16]);
    PadNumber(s[17..19]);
    Layout(s);
  }

  /** A string with the separators of the layout is its six fields joined
      by those separators. */
  lemma Layout(s: string)
    requires |s| == 19 && s[4] == '-' && s[7] == '-' && s[10] == ' ' && s[13] == ':' && s[16] == ':'
    ensures s == s[0..4] + "-" + s[5..7] + "-" + s[8..10] + " "
                 + s[11..13] + ":" + s[14..16] + ":" + s[17..19]
  {
  }

  // ---------------------------------------------------------------------
  // Seconds preserve the order of dates

  lemma DaysBeforeYearStep(year: int)
    requires year >= 1
    ensures DaysBeforeYear(year + 1) == DaysBeforeYear(year) + DaysInYear(year)
  {
    assert year / 4 == (year - 1) / 4 + (if year % 4 == 0 then 1 else 0);
    assert year / 100 == (year - 1) / 100 + (if year % 100 == 0 then 1 else 0);
    assert year / 400 == (year - 1) / 400 + (if year % 400 == 0 then 1 else 0);
  }

  lemma {:induction false} DaysBeforeYearGrows(a: int, b: int)
    requires 1 <= a < b
    ensures DaysBeforeYear(a) + DaysInYear(a) <= DaysBeforeYear(b)
    decreases b - a
  {
    DaysBeforeYearStep(a);
    if a + 1 < b {
      DaysBeforeYearGrows(a + 1, b);
    }
  }

  lemma MonthEnd(year: int, month: int)
    requires 1 <= month <= 12
    ensures month < 12 ==> DaysBeforeMonth(year, month) + DaysInMonth(year, month) == DaysBeforeMonth(year, month + 1)
    ensures month == 12 ==> DaysBeforeMonth(year, month) + DaysInMonth(year, month) == DaysInYear(year)
  {
  }

  lemma {:induction false} DaysBeforeMonthGrows(year: int, a: int, b: int)
    requires 1 <= a < b <= 12
    ensures DaysBeforeMonth(year, a) + DaysInMonth(year, a) <= DaysBeforeMonth(year, b)
    decreases b - a
  {
    MonthEnd(year, a);
    if a + 1 < b {
      MonthEnd(year, a + 1);
      DaysBeforeMonthGrows(year, a + 1, b);
    }
  }

  lemma OrdinalMonotone(a: DateTime, b: DateTime)
    requires Valid(a) && Valid(b)
    requires a.year < b.year || (a.year == b.year && a.month < b.month)
             || (a.year == b.year && a.month == b.month && a.day < b.day)
    ensures Ordinal(a) < Ordinal(b)
  {
    if a.year < b.year {
      MonthEnd(a.year, a.month);
      if a.month < 12 {
        DaysBeforeMonthGrows(a.year, a.month, 12);
        MonthEnd(a.year, 12);
      }
      DaysBeforeYearGrows(a.year, b.year);
    } else if a.month < b.month {
      DaysBeforeMonthGrows(a.year, a.month, b.month);
    }
  }

  /** Comparing seconds is comparing dates the way Python does, and two
      valid dates have the same seconds exactly when they are equal. */
  lemma SecondsOrder(a: DateTime, b: DateTime)
    requires Valid(a) && Valid(b)
    ensures Before(a, b) <==> ToSeconds(a) < ToSeconds(b)
    ensures a == b <==> ToSeconds(a) == ToSeconds(b)
  {
    if Before(a, b) {
      SecondsMonotone(a, b);
    } else if Before(b, a) {
      SecondsMonotone(b, a);
    }
  }

  lemma SecondsMonotone(a: DateTime, b: DateTime)
    requires Valid(a) && Valid(b) && Before(a, b)
    ensures ToSeconds(a) < ToSeconds(b)
  {
    if a.year < b.year || (a.year == b.year && a.month < b.month)
       || (a.year == b.year && a.month == b.month && a.day < b.day)
    {
      OrdinalMonotone(a, b);
    }
  }

  /** Two date texts the parser accepts give the same seconds only when
      they are the same text: within the zero-padded layout, distinct texts
      never share a lookup key. */
  lemma ParseSecondsInjective(s: string, t: string)
    requires ParseSeconds(s).Some? && ParseSeconds(t).Some?
    requires ParseSeconds(s).value == ParseSeconds(t).value
    ensures s == t
  {
    var a, b := Parse(s).value, Parse(t).value;
    SecondsOrder(a, b);
    FormatParse(s);
    FormatParse(t);
  }
}

=== FILE: freshness.dfy ===
/** `DatabaseManager.last_quake_status` without the photo lookup: whether
    the latest recorded earthquake falls inside the staleness window. */
module Freshness {
  import opened Results
  import opened Store

  /** `Stale`: nothing happened within the window, so no earthquake is
      reported. `Fresh`: the latest earthquake is reported. */
  datatype Verdict = Stale | Fresh(quake: Quake)

  /** `now` is the already shifted current time and `window` the scraping
      interval, both in seconds on the scale of stored dates. An empty table
      gives no verdict at all. */
  function LastQuakeStatus(store: seq<Quake>, now: int, window: int): (r: Option<Verdict>)
    ensures r.None? <==> |store| == 0
    ensures r == Some(Stale) <==> |store| > 0 && forall q :: q in store ==> now - q.date > window
    ensures r.Some? && r.value.Fresh? ==>
              && r.value.quake in store
              && now - r.value.quake.date <= window
              && forall q :: q in store ==> q.date <= r.value.quake.date
  {
    match Latest(store)
    case None => None
    case Some(q) => if now - q.date > window then Some(Stale) else Some(Fresh(q))
  }

  /** The comparison is strict: with latest date `t`, the verdict is fresh
      up to and including `now == t + window` and stale one second later. */
  lemma FreshnessBoundary(store: seq<Quake>, window: int)
    requires |store| > 0
    ensures var t := Watermark(store).value;
            && LastQuakeStatus(store, t + window - 1, window).value.Fresh?
            && LastQuakeStatus(store, t + window, window).value.Fresh?
            && LastQuakeStatus(store, t + window + 1, window) == Some(Stale)
  {
  }
}

=== FILE: ingest.dfy ===
/** The server's ingestion of a scraped batch: `Earthquakes.create_from_json`
    and `DatabaseManager.add_earthquake` (Server.py). A candidate arrives as
    the JSON object the scraper produced, so every key lookup may fail the
    way `json_data['...']` raises `KeyError`. */
module Ingest {
  import opened Results
  import Dates
  import opened Store
  import opened Payload

  /** The failures the model distinguishes; each rolls the batch back. */
  datatype IngestError =
    | MissingKey(key: string)   // KeyError from `json_data[key]`
    | BadDate(text: string)     // ValueError from `strptime`
    | ValueTooLong              // the database refuses a too long `type` or `place`

  /** The widths of the `type` and `place` columns. */
  const TypeWidth := 4
  const PlaceWidth := 250

  /** A row the table's column types accept. */
  predicate FitsColumns(q: Quake) {
    |q.kind| <= TypeWidth && |q.place| <= PlaceWidth
  }

  /** `json_data[key]`. */
  function Field(j: Json, key: string): (r: Result<string, IngestError>)
    ensures r.Success? <==> key in j
    ensures r.Success? ==> r.value == j[key]
    ensures r.Failure? ==> r.error == MissingKey(key)
  {
    if key in j then Success(j[key]) else Failure(MissingKey(key))
  }

  /** Reading and parsing the candidate's `Date`. */
  function CandidateDate(j: Json): (r: Result<int, IngestError>)
    ensures r.Success? <==> DateKey in j && Dates.ParseSeconds(j[DateKey]).Some?
    ensures r.Success? ==> r.value == Dates.ParseSeconds(j[DateKey]).value
  {
    var text :- Field(j, DateKey);
    match Dates.ParseSeconds(text)
    case None => Failure(BadDate(text))
    case Some(t) => Success(t)
  }

  /** The duplicate-lookup key, read in the order the lookup reads it. */
  function CandidateKey(j: Json): (r: Result<QuakeKey, IngestError>)
    ensures r.Success? <==> CandidateDate(j).Success? && LatitudeKey in j
                            && LongitudeKey in j && MagnitudeKey in j
    ensures r.Success? ==> r.value == QuakeKey(CandidateDate(j).value, j[LatitudeKey],
                                               j[LongitudeKey], j[MagnitudeKey])
  {
    var date :- CandidateDate(j);
    var latitude :- Field(j, LatitudeKey);
    var longitude :- Field(j, LongitudeKey);
    var magnitude :- Field(j, MagnitudeKey);
    Success(QuakeKey(date, latitude, longitude, magnitude))
  }

  /** The row `create_from_json` builds from a candidate. */
  function Record(j: Json): (r: Result<Quake, IngestError>)
    ensures r.Success? <==> CandidateKey(j).Success? && DepthKey in j && TypeKey in j
                            && LocationKey in j
    ensures r.Success? ==> KeyOf(r.value) == CandidateKey(j).value
  {
    var key :- CandidateKey(j);
    var depth :- Field(j, DepthKey);
    var kind :- Field(j, TypeKey);
    var place :- Field(j, LocationKey);
    Success(Quake(key.date, key.latitude, key.longitude, depth, kind, key.magnitude, place))
  }

  /** A built row takes each column from the candidate field of the same
      meaning, and the date from the parsed `Date`. */
  lemma RecordFields(j: Json)
    requires Record(j).Success?
    ensures var q := Record(j).value;
            && Dates.ParseSeconds(j[DateKey]) == Some(q.date)
            && q.latitude == j[LatitudeKey] && q.longitude == j[LongitudeKey]
            && q.depth == j[DepthKey] && q.kind == j[TypeKey]
            && q.magnitude == j[MagnitudeKey] && q.place == j[LocationKey]
  {
  }

  /** `Earthquakes.create_from_json`: adds the candidate's row unless a row
      with the same key is already stored. */
  function CreateFromJson(store: seq<Quake>, j: Json): (r: Result<seq<Quake>, IngestError>)
    ensures r.Success? <==> CandidateKey(j).Success?
                            && (HasKey(store, CandidateKey(j).value) || Record(j).Success?)
    ensures r.Success? ==> (r.value == store <==> HasKey(store, CandidateKey(j).value))
    ensures r.Success? && r.value != store ==> r.value == store + [Record(j).value]
  {
    var key :- CandidateKey(j);
    if HasKey(store, key) then
      Success(store)
    else
      var q :- Record(j);
      assert q in store + [q];
      Success(store + [q])
  }

  /** Every row in `store'` beyond the prefix `store` has a key that no
      earlier row has. */
  predicate FreshKeys(store: seq<Quake>, store': seq<Quake>)
    requires |store| <= |store'|
  {
    forall i :: |store| <= i < |store'| ==> !HasKey(store'[..i], KeyOf(store'[i]))
  }

  lemma FreshKeysTrans(s0: seq<Quake>, s1: seq<Quake>, s2: seq<Quake>)
    requires s0 <= s1 <= s2
    requires FreshKeys(s0, s1) && FreshKeys(s1, s2)
    ensures FreshKeys(s0, s2)
  {
    forall i | |s0| <= i < |s2|
      ensures !HasKey(s2[..i], KeyOf(s2[i]))
    {
      if i < |s1| {
        assert s2[..i] == s1[..i];
        assert s2[i] == s1[i];
      }
    }
  }

  /** The watermark filter of `add_earthquake`: no watermark, or strictly
      newer than it. */
  predicate Passes(watermark: Option<int>, date: int) {
    watermark.None? || date > watermark.value
  }

  /** The staged state of a batch: the table with the pending rows, and
      whether any candidate passed the filter (`new_data_added`). */
  datatype Staged = Staged(store: seq<Quake>, added: bool)

  /** The loop of `add_earthquake` over the candidates, against a
      watermark that stays fixed while the batch is processed. The lookup
      for duplicates sees rows staged earlier in the same batch. */
  function Reconcile(store: seq<Quake>, watermark: Option<int>, batch: seq<Json>)
    : (r: Result<Staged, IngestError>)
    ensures r.Success? ==> store <= r.value.store
    ensures r.Success? ==> FreshKeys(store, r.value.store)
    decreases |batch|
  {
    if |batch| == 0 then
      Success(Staged(store, false))
    else
      var date :- CandidateDate(batch[0]);
      if Passes(watermark, date) then
        var store1 :- CreateFromJson(store, batch[0]);
        var rest :- Reconcile(store1, watermark, batch[1..]);
        assert FreshKeys(store, store1) by {
          if store1 != store {
            assert store1[..|store|] == store;
            assert KeyOf(store1[|store|]) == CandidateKey(batch[0]).value;
          }
        }
        FreshKeysTrans(store, store1, rest.store);
        Success(Staged(rest.store, true))
      else
        Reconcile(store, watermark, batch[1..])
  }

  /** What one call of `add_earthquake` leaves behind: the table after the
      commit, or the unchanged table after a rollback. */
  datatype Ingestion =
    | Committed(store: seq<Quake>, newDataAdded: bool)
    | RolledBack(store: seq<Quake>, error: IngestError)

  /** `DatabaseManager.add_earthquake`: reads the watermark once, reconciles
      the batch, and commits it as a whole or rolls it back as a whole. The
      database checks the column widths when the staged rows are written. */
  function AddEarthquake(store: seq<Quake>, batch: seq<Json>): (r: Ingestion)
    ensures store <= r.store
    ensures r.RolledBack? ==> r.store == store
    ensures r.Committed? ==> forall i :: |store| <= i < |r.store| ==> FitsColumns(r.store[i])
    ensures FreshKeys(store, r.store)
    ensures NoDuplicateKeys(store) ==> NoDuplicateKeys(r.store)
  {
    match Reconcile(store, Watermark(store), batch)
    case Success(staged) =>
      if forall i | |store| <= i < |staged.store| :: FitsColumns(staged.store[i]) then
        NoDuplicatesExtend(store, staged.store);
        Committed(staged.store, staged.added)
      else
        RolledBack(store, ValueTooLong)
    case Failure(e) =>
      RolledBack(store, e)
  }

  lemma NoDuplicatesExtend(store: seq<Quake>, store': seq<Quake>)
    requires store <= store' && FreshKeys(store, store')
    ensures NoDuplicateKeys(store) ==> NoDuplicateKeys(store')
  {
    if NoDuplicateKeys(store) {
      forall i, j | 0 <= i < j < |store'|
        ensures KeyOf(store'[i]) != KeyOf(store'[j])
      {
        if j >= |store| {
          assert store'[..j][i] == store'[i];
        } else {
          assert store'[i] == store[i] && store'[j] == store[j];
        }
      }
    }
  }

  // ---------------------------------------------------------------------
  // What a reconciliation does, candidate by candidate

  /** A staged batch had a parsable date on every candidate, and every
      candidate that passed the filter is present in the table afterwards,
      either newly added or already there. */
  lemma {:induction false} ReconcileCovers(store: seq<Quake>, watermark: Option<int>, batch: seq<Json>)
    requires Reconcile(store, watermark, batch).Success?
    ensures var out := Reconcile(store, watermark, batch).value.store;
            forall k :: 0 <= k < |batch| ==>
              && CandidateDate(batch[k]).Success?
              && (Passes(watermark, CandidateDate(batch[k]).value) ==>
                    CandidateKey(batch[k]).Success? && HasKey(out, CandidateKey(batch[k]).value))
    decreases |batch|
  {
    if |batch| > 0 {
      var out := Reconcile(store, watermark, batch).value.store;
      var date := CandidateDate(batch[0]).value;
      var store1 := if Passes(watermark, date) then CreateFromJson(store, batch[0]).value else store;
      ReconcileCovers(store1, watermark, batch[1..]);
      assert out == Reconcile(store1, watermark, batch[1..]).value.store;
      forall k | 0 <= k < |batch|
        ensures CandidateDate(batch[k]).Success?
        ensures Passes(watermark, CandidateDate(batch[k]).value) ==>
                  CandidateKey(batch[k]).Success? && HasKey(out, CandidateKey(batch[k]).value)
      {
        if k == 0 {
          if Passes(watermark, date) {
            var i :| 0 <= i < |store1| && KeyOf(store1[i]) == CandidateKey(batch[0]).value;
            assert out[i] == store1[i];
          }
        } else {
          assert batch[k] == batch[1..][k - 1];
        }
      }
    }
  }

  /** Every row a staged batch added passed the filter and is the row built
      from a candidate that reached the row construction: the first passing
      candidate with its key. A later candidate repeating that key finds the
      staged row and is skipped. */
  lemma {:induction false} ReconcileProvenance(store: seq<Quake>, watermark: Option<int>, batch: seq<Json>)
    requires Reconcile(store, watermark, batch).Success?
    ensures var out := Reconcile(store, watermark, batch).value.store;
            forall i :: |store| <= i < |out| ==>
              && Passes(watermark, out[i].date)
              && exists k :: 0 <= k < |batch| && ReachesInsert(store, watermark, batch, k)
                             && Record(batch[k]) == Success(out[i])
    decreases |batch|
  {
    if |batch| > 0 {
      var out := Reconcile(store, watermark, batch).value.store;
      var date := CandidateDate(batch[0]).value;
      var passes := Passes(watermark, date);
      var store1 := if passes then CreateFromJson(store, batch[0]).value else store;
      var rest := batch[1..];
      ReconcileProvenance(store1, watermark, rest);
      assert out == Reconcile(store1, watermark, rest).value.store;
      assert store <= store1;
      assert CandidateKey(batch[0]).Success? && Passes(watermark, CandidateKey(batch[0]).value.date) ==>
               HasKey(store1, CandidateKey(batch[0]).value) by {
        if CandidateKey(batch[0]).Success? && Passes(watermark, CandidateKey(batch[0]).value.date) {
          assert passes;
          if store1 != store {
            assert store1 == store + [Record(batch[0]).value];
            assert KeyOf(store1[|store|]) == CandidateKey(batch[0]).value;
          }
        }
      }
      forall i | |store| <= i < |out|
        ensures Passes(watermark, out[i].date)
        ensures exists k :: 0 <= k < |batch| && ReachesInsert(store, watermark, batch, k)
                            && Record(batch[k]) == Success(out[i])
      {
        if i < |store1| {
          assert store1 == store + [Record(batch[0]).value];
          assert out[i] == store1[i] == Record(batch[0]).value;
          assert Record(batch[0]) == Success(out[i]);
          assert ReachesInsert(store, watermark, batch, 0);
        } else {
          var k :| 0 <= k < |rest| && ReachesInsert(store1, watermark, rest, k)
                   && Record(rest[k]) == Success(out[i]);
          ReachesInsertShift(store, store1, watermark, batch, k);
          assert Record(batch[k + 1]) == Success(out[i]);
        }
      }
    }
  }

  /** A candidate that reaches the row construction after the first
      candidate has been handled also reaches it in the whole batch. */
  lemma ReachesInsertShift(store: seq<Quake>, store1: seq<Quake>, watermark: Option<int>,
                           batch: seq<Json>, k: int)
    requires 0 <= k < |batch| - 1 && store <= store1
    requires CandidateKey(batch[0]).Success? && Passes(watermark, CandidateKey(batch[0]).value.date) ==>
               HasKey(store1, CandidateKey(batch[0]).value)
    requires ReachesInsert(store1, watermark, batch[1..], k)
    ensures ReachesInsert(store, watermark, batch, k + 1)
  {
    var rest := batch[1..];
    assert rest[k] == batch[k + 1];
    var key := CandidateKey(batch[k + 1]).value;
    forall l | 0 <= l < k + 1 && CandidateKey(batch[l]).Success?
               && Passes(watermark, CandidateKey(batch[l]).value.date)
      ensures CandidateKey(batch[l]).value != key
    {
      if l > 0 {
        assert rest[l - 1] == batch[l];
      }
    }
  }

  /** The staged flag is set exactly when some candidate passed the
      filter, whether or not its row turned out to be a duplicate. */
  lemma {:induction false} ReconcileAdded(store: seq<Quake>, watermark: Option<int>, batch: seq<Json>)
    requires Reconcile(store, watermark, batch).Success?
    ensures Reconcile(store, watermark, batch).value.added <==>
            exists k :: 0 <= k < |batch| && CandidateDate(batch[k]).Success?
                        && Passes(watermark, CandidateDate(batch[k]).value)
    decreases |batch|
  {
    if |batch| > 0 {
      var date := CandidateDate(batch[0]).value;
      var store1 := if Passes(watermark, date) then CreateFromJson(store, batch[0]).value else store;
      ReconcileAdded(store1, watermark, batch[1..]);
      if !Passes(watermark, date) {
        if exists k :: 0 <= k < |batch| && CandidateDate(batch[k]).Success?
                       && Passes(watermark, CandidateDate(batch[k]).value)
        {
          var k :| 0 <= k < |batch| && CandidateDate(batch[k]).Success?
                   && Passes(watermark, CandidateDate(batch[k]).value);
          assert batch[k] == batch[1..][k - 1];
        }
        assert forall k :: 0 <= k < |batch[1..]| ==> batch[1..][k] == batch[k + 1];
      }
    }
  }

  /** A batch whose every candidate carries all seven keys and a parsable
      date is always staged. */
  lemma {:induction false} ReconcileWellFormed(store: seq<Quake>, watermark: Option<int>, batch: seq<Json>)
    requires forall k :: 0 <= k < |batch| ==> Record(batch[k]).Success?
    ensures Reconcile(store, watermark, batch).Success?
    decreases |batch|
  {
    if |batch| > 0 {
      var date := CandidateDate(batch[0]).value;
      var store1 := if Passes(watermark, date) then CreateFromJson(store, batch[0]).value else store;
      assert forall k :: 0 <= k < |batch[1..]| ==> batch[1..][k] == batch[k + 1];
      ReconcileWellFormed(store1, watermark, batch[1..]);
    }
  }

  /** A batch in which no candidate passes the filter stages nothing. */
  lemma {:induction false} ReconcileNothingPasses(store: seq<Quake>, watermark: Option<int>, batch: seq<Json>)
    requires forall k :: 0 <= k < |batch| ==>
               CandidateDate(batch[k]).Success? && !Passes(watermark, CandidateDate(batch[k]).value)
    ensures Reconcile(store, watermark, batch) == Success(Staged(store, false))
    decreases |batch|
  {
    if |batch| > 0 {
      assert forall k :: 0 <= k < |batch[1..]| ==> batch[1..][k] == batch[k + 1];
      ReconcileNothingPasses(store, watermark, batch[1..]);
    }
  }

  /** Candidate `k` reaches the row construction of `create_from_json`: it
      passes the filter, and its key is neither in `store` nor the key of
      an earlier candidate that passed the filter. */
  predicate ReachesInsert(store: seq<Quake>, watermark: Option<int>, batch: seq<Json>, k: int)
    requires 0 <= k < |batch|
  {
    && CandidateKey(batch[k]).Success?
    && Passes(watermark, CandidateKey(batch[k]).value.date)
    && !HasKey(store, CandidateKey(batch[k]).value)
    && forall l :: 0 <= l < k && CandidateKey(batch[l]).Success?
                   && Passes(watermark, CandidateKey(batch[l]).value.date) ==>
                     CandidateKey(batch[l]).value != CandidateKey(batch[k]).value
  }

  /** A staged batch built a row for every candidate that reached the row
      construction: none of them lacked `Depth(Km)`, `Type` or `Location`. */
  lemma {:induction false} ReconcileBuildsNewRows(store: seq<Quake>, watermark: Option<int>, batch: seq<Json>)
    requires Reconcile(store, watermark, batch).Success?
    ensures forall k :: 0 <= k < |batch| && ReachesInsert(store, watermark, batch, k) ==>
              Record(batch[k]).Success?
    decreases |batch|
  {
    if |batch| > 0 {
      var date := CandidateDate(batch[0]).value;
      var passes := Passes(watermark, date);
      var store1 := if passes then CreateFromJson(store, batch[0]).value else store;
      var rest := batch[1..];
      ReconcileBuildsNewRows(store1, watermark, rest);
      forall k | 0 <= k < |batch| && ReachesInsert(store, watermark, batch, k)
        ensures Record(batch[k]).Success?
      {
        if k > 0 {
          var key := CandidateKey(batch[k]).value;
          assert rest[k - 1] == batch[k];
          if passes {
            assert CandidateKey(batch[0]).Success?;
            assert CandidateKey(batch[0]).value != key;
            if store1 != store {
              HasKeyAppend(store, Record(batch[0]).value, key);
            }
          }
          forall l | 0 <= l < k - 1 && CandidateKey(rest[l]).Success?
                     && Passes(watermark, CandidateKey(rest[l]).value.date)
            ensures CandidateKey(rest[l]).value != key
          {
            assert rest[l] == batch[l + 1];
          }
          assert ReachesInsert(store1, watermark, rest, k - 1);
        }
      }
    }
  }

  // ---------------------------------------------------------------------
  // Properties of one call of add_earthquake

  /** A committed batch: every candidate's date parsed; every candidate
      newer than the watermark read before the loop is in the table; every
      added row is newer than that watermark and built from a candidate;
      and `new_data_added` says whether any candidate was newer. */
  lemma AddEarthquakeCommitted(store: seq<Quake>, batch: seq<Json>)
    requires AddEarthquake(store, batch).Committed?
    ensures var r := AddEarthquake(store, batch);
            var w := Watermark(store);
            && (forall k :: 0 <= k < |batch| ==>
                  && CandidateDate(batch[k]).Success?
                  && (Passes(w, CandidateDate(batch[k]).value) ==>
                        CandidateKey(batch[k]).Success? && HasKey(r.store, CandidateKey(batch[k]).value)))
            && (forall i :: |store| <= i < |r.store| ==>
                  && Passes(w, r.store[i].date)
                  && exists k :: 0 <= k < |batch| && ReachesInsert(store, w, batch, k)
                                 && Record(batch[k]) == Success(r.store[i]))
            && (r.newDataAdded <==>
                  exists k :: 0 <= k < |batch| && CandidateDate(batch[k]).Success?
                              && Passes(w, CandidateDate(batch[k]).value))
  {
    ReconcileCovers(store, Watermark(store), batch);
    ReconcileProvenance(store, Watermark(store), batch);
    ReconcileAdded(store, Watermark(store), batch);
  }

  /** A row whose key is already in the table is never added a second
      time. */
  lemma AddEarthquakeSkipsKnown(store: seq<Quake>, batch: seq<Json>, q: Quake)
    requires AddEarthquake(store, batch).Committed?
    requires HasKey(store, KeyOf(q))
    ensures forall i :: |store| <= i < |AddEarthquake(store, batch).store| ==>
              KeyOf(AddEarthquake(store, batch).store[i]) != KeyOf(q)
  {
    var out := AddEarthquake(store, batch).store;
    forall i | |store| <= i < |out|
      ensures KeyOf(out[i]) != KeyOf(q)
    {
      var j :| 0 <= j < |store| && KeyOf(store[j]) == KeyOf(q);
      assert out[..i][j] == store[j];
    }
  }

  /** All or nothing, committing side: a batch of complete candidates with
      parsable dates and values that fit their columns always commits. */
  lemma AddEarthquakeCommitsWellFormed(store: seq<Quake>, batch: seq<Json>)
    requires forall k :: 0 <= k < |batch| ==> Record(batch[k]).Success?
    requires forall k :: 0 <= k < |batch| ==> FitsColumns(Record(batch[k]).value)
    ensures AddEarthquake(store, batch).Committed?
  {
    ReconcileWellFormed(store, Watermark(store), batch);
    ReconcileProvenance(store, Watermark(store), batch);
  }

  /** All or nothing, rolling-back side: one candidate without a parsable
      date rolls the whole batch back and leaves the table as it was. */
  lemma AddEarthquakeRollsBack(store: seq<Quake>, batch: seq<Json>, k: int)
    requires 0 <= k < |batch| && CandidateDate(batch[k]).Failure?
    ensures AddEarthquake(store, batch).RolledBack?
    ensures AddEarthquake(store, batch).store == store
  {
    if AddEarthquake(store, batch).Committed? {
      AddEarthquakeCommitted(store, batch);
      assert false;
    }
  }

  /** On commit, every candidate that reached the row construction had all
      of `Depth(Km)`, `Type` and `Location`. */
  lemma AddEarthquakeBuildsNewRows(store: seq<Quake>, batch: seq<Json>)
    requires AddEarthquake(store, batch).Committed?
    ensures forall k :: 0 <= k < |batch| && ReachesInsert(store, Watermark(store), batch, k) ==>
              Record(batch[k]).Success?
  {
    ReconcileBuildsNewRows(store, Watermark(store), batch);
  }

  /** A candidate that passes the filter but lacks `Latitude`, `Longitude`
      or `Magnitude` makes the duplicate lookup raise `KeyError`, and the
      whole batch rolls back. */
  lemma AddEarthquakeRollsBackOnKey(store: seq<Quake>, batch: seq<Json>, k: int)
    requires 0 <= k < |batch| && CandidateDate(batch[k]).Success?
    requires Passes(Watermark(store), CandidateDate(batch[k]).value)
    requires CandidateKey(batch[k]).Failure?
    ensures AddEarthquake(store, batch).RolledBack?
    ensures AddEarthquake(store, batch).store == store
  {
    if AddEarthquake(store, batch).Committed? {
      AddEarthquakeCommitted(store, batch);
      assert false;
    }
  }

  /** A candidate that reaches the row construction without `Depth(Km)`,
      `Type` or `Location` makes `create_from_json` raise `KeyError`, and
      the whole batch rolls back. */
  lemma AddEarthquakeRollsBackOnColumn(store: seq<Quake>, batch: seq<Json>, k: int)
    requires 0 <= k < |batch| && ReachesInsert(store, Watermark(store), batch, k)
    requires Record(batch[k]).Failure?
    ensures AddEarthquake(store, batch).RolledBack?
    ensures AddEarthquake(store, batch).store == store
  {
    if AddEarthquake(store, batch).Committed? {
      AddEarthquakeBuildsNewRows(store, batch);
      assert false;
    }
  }

  /** Ingesting the batch that was just committed again changes nothing
      and reports no new data. */
  lemma AddEarthquakeIdempotent(store: seq<Quake>, batch: seq<Json>)
    requires AddEarthquake(store, batch).Committed?
    ensures var s1 := AddEarthquake(store, batch).store;
            AddEarthquake(s1, batch) == Committed(s1, false)
  {
    var s1 := AddEarthquake(store, batch).store;
    var w0, w1 := Watermark(store), Watermark(s1);
    AddEarthquakeCommitted(store, batch);
    WatermarkMonotone(store, s1);
    forall k | 0 <= k < |batch|
      ensures CandidateDate(batch[k]).Success? && !Passes(w1, CandidateDate(batch[k]).value)
    {
      var date := CandidateDate(batch[k]).value;
      if Passes(w0, date) {
        var i :| 0 <= i < |s1| && KeyOf(s1[i]) == CandidateKey(batch[k]).value;
        assert s1[i] in s1;
      }
    }
    ReconcileNothingPasses(s1, w1, batch);
  }

  /** The watermark never moves backwards across ingestions. */
  lemma AddEarthquakeWatermark(store: seq<Quake>, batch: seq<Json>)
    ensures var w, w' := Watermark(store), Watermark(AddEarthquake(store, batch).store);
            w.Some? ==> w'.Some? && w.value <= w'.value
  {
    WatermarkMonotone(store, AddEarthquake(store, batch).store);
  }
}

=== FILE: payload.dfy ===
/** The candidate objects that travel from the scraper to the server. */
module Payload {

  /** One decoded JSON object: key to string value. */
  type Json = map<string, string>

  const DateKey := "Date"
  const LatitudeKey := "Latitude"
  const LongitudeKey := "Longitude"
  const DepthKey := "Depth(Km)"
  const TypeKey := "Type"
  const MagnitudeKey := "Magnitude"
  const LocationKey := "Location"

  /** One scraped table row, every value still the trimmed cell text. */
  datatype Candidate = Candidate(
    date: string,
    latitude: string,
    longitude: string,
    depth: string,
    kind: string,
    magnitude: string,
    location: string)

  /** The candidate's values in table column order. */
  function Fields(c: Candidate): seq<string> {
    [c.date, c.latitude, c.longitude, c.depth, c.kind, c.magnitude, c.location]
  }

  /** The dictionary the scraper builds for a row. */
  function ToJson(c: Candidate): Json {
    map[DateKey := c.date, LatitudeKey := c.latitude, LongitudeKey := c.longitude,
        DepthKey := c.depth, TypeKey := c.kind, MagnitudeKey := c.magnitude,
        LocationKey := c.location]
  }
}

=== FILE: pipeline.dfy ===
/** One scrape-and-ingest cycle seen end to end: the candidates the scraper
    fetched, sent as JSON objects, reconciled by the server. */
module Pipeline {
  import opened Results
  import Dates
  import opened Store
  import opened Payload
  import opened Scraper
  import opened Ingest

  /** The objects posted for a list of fetched candidates, in order. */
  function Batch(cs: seq<Candidate>): (b: seq<Json>)
    ensures |b| == |cs|
    ensures forall k :: 0 <= k < |cs| ==> b[k] == ToJson(cs[k])
  {
    if |cs| == 0 then [] else [ToJson(cs[0])] + Batch(cs[1..])
  }

  /** A scraped candidate always carries all seven keys, so the row built
      from it fails only on its date, and otherwise takes each column from
      the candidate field of the same name. */
  lemma ScrapedRecord(c: Candidate)
    ensures Record(ToJson(c)).Success? <==> Dates.ParseSeconds(c.date).Some?
    ensures Record(ToJson(c)).Success? ==>
              Record(ToJson(c)).value == Quake(Dates.ParseSeconds(c.date).value, c.latitude,
                                               c.longitude, c.depth, c.kind, c.magnitude,
                                               c.location)
  {
    var j := ToJson(c);
    assert DateKey in j && LatitudeKey in j && LongitudeKey in j && MagnitudeKey in j;
    assert DepthKey in j && TypeKey in j && LocationKey in j;
    assert j[DateKey] == c.date;
    assert j[LatitudeKey] == c.latitude && j[LongitudeKey] == c.longitude;
    assert j[DepthKey] == c.depth && j[TypeKey] == c.kind;
    assert j[MagnitudeKey] == c.magnitude && j[LocationKey] == c.location;
  }

  /** Scraped candidates never fail on a missing key: ingesting them
      rolls back whenever some date does not parse, and commits whenever
      every date parses and every type and location fits its column. */
  lemma ScrapedBatchCommits(store: seq<Quake>, cs: seq<Candidate>)
    ensures (exists k :: 0 <= k < |cs| && Dates.ParseSeconds(cs[k].date).None?) ==>
              AddEarthquake(store, Batch(cs)).RolledBack?
    ensures (forall k :: 0 <= k < |cs| ==>
               Dates.ParseSeconds(cs[k].date).Some?
               && |cs[k].kind| <= TypeWidth && |cs[k].location| <= PlaceWidth) ==>
              AddEarthquake(store, Batch(cs)).Committed?
  {
    var b := Batch(cs);
    if exists k :: 0 <= k < |cs| && Dates.ParseSeconds(cs[k].date).None? {
      var k :| 0 <= k < |cs| && Dates.ParseSeconds(cs[k].date).None?;
      ScrapedRecord(cs[k]);
      AddEarthquakeRollsBack(store, b, k);
    }
    if forall k :: 0 <= k < |cs| ==>
         Dates.ParseSeconds(cs[k].date).Some?
         && |cs[k].kind| <= TypeWidth && |cs[k].location| <= PlaceWidth
    {
      forall k | 0 <= k < |b|
        ensures Record(b[k]).Success? && FitsColumns(Record(b[k]).value)
      {
        ScrapedRecord(cs[k]);
      }
      AddEarthquakeCommitsWellFormed(store, b);
    }
  }

  /** How one scrape-and-post cycle ends. */
  datatype CycleOutcome =
    | NoData                      // the page was not ok; the server rejects the empty payload
    | FetchFailed(e: FetchError)  // the fetch raised before anything was posted
    | Ingested(i: Ingestion)      // the batch reached `add_earthquake`

  /** One cycle: fetch, post the candidates, ingest them. Only a fetched
      batch can change the table. */
  function Cycle(store: seq<Quake>, response: Response): (r: (seq<Quake>, CycleOutcome))
    ensures store <= r.0
    ensures NoDuplicateKeys(store) ==> NoDuplicateKeys(r.0)
    ensures !r.1.Ingested? ==> r.0 == store
    ensures r.1.Ingested? ==> r.0 == r.1.i.store
    ensures !response.ok ==> r == (store, NoData)
    ensures FetchQuakeData(response).Failure? ==>
              r == (store, FetchFailed(FetchQuakeData(response).error))
    ensures FetchQuakeData(response).Success? && FetchQuakeData(response).value.Some? ==>
              r.1 == Ingested(AddEarthquake(store, Batch(FetchQuakeData(response).value.value)))
  {
    match FetchQuakeData(response)
    case Failure(e) => (store, FetchFailed(e))
    case Success(None) => (store, NoData)
    case Success(Some(cs)) =>
      var i := AddEarthquake(store, Batch(cs));
      (i.store, Ingested(i))
  }

  /** An ok page with a row of fewer than seven cells after the header
      posts nothing: the cycle ends in a failed fetch that names such a row,
      and the table is unchanged. */
  lemma CycleShortRow(store: seq<Quake>, response: Response, i: int)
    requires response.ok && 1 <= i < |response.rows| && |response.rows[i]| < 7
    ensures Cycle(store, response).0 == store
    ensures Cycle(store, response).1.FetchFailed?
    ensures var row := Cycle(store, response).1.e.row;
            && 1 <= row <= i && |response.rows[row]| < 7
            && forall j :: 1 <= j < row ==> |response.rows[j]| >= 7
  {
    assert FetchQuakeData(response).Failure?;
  }
}

=== FILE: results.dfy ===
/** Failure-compatible wrappers shared by the scraper and the server model.
    `Option` stands for Python's `None`-or-value returns, `Result` for a
    computation that may raise. Both work with Dafny's `:-` operator. */
module Results {

  datatype Option<+T> = None | Some(value: T) {

    predicate IsFailure() {
      None?
    }

    function PropagateFailure<U>(): Option<U>
      requires None?
    {
      None
    }

    function Extract(): T
      requires Some?
    {
      value
    }
  }

  datatype Result<+R, +E> = Success(value: R) | Failure(error: E) {

    predicate IsFailure() {
      Failure?
    }

    function PropagateFailure<U>(): Result<U, E>
      requires Failure?
    {
      Failure(error)
    }

    function Extract(): R
      requires Success?
    {
      value
    }
  }
}

=== FILE: scenarios.dfy ===
/** Worked ingestion examples, stated for all candidates of the given shape. */
module Scenarios {
  import opened Results
  import Dates
  import opened Store
  import opened Payload
  import opened Ingest
  import opened Pipeline

  /** The rows built from a batch of complete candidates, in batch order. */
  function Records(batch: seq<Json>): (qs: seq<Quake>)
    requires forall k :: 0 <= k < |batch| ==> Record(batch[k]).Success?
    ensures |qs| == |batch|
    ensures forall k :: 0 <= k < |batch| ==> qs[k] == Record(batch[k]).value
  {
    if |batch| == 0 then [] else [Record(batch[0]).value] + Records(batch[1..])
  }

  /** Against an empty table (no watermark), a batch of complete candidates
      with keys new to the table and distinct from each other is added in
      full and in order. */
  lemma {:induction false} ReconcileAllNew(store: seq<Quake>, batch: seq<Json>)
    requires forall k :: 0 <= k < |batch| ==> Record(batch[k]).Success?
    requires forall k :: 0 <= k < |batch| ==> !HasKey(store, KeyOf(Record(batch[k]).value))
    requires forall k, l :: 0 <= k < l < |batch| ==>
               KeyOf(Record(batch[k]).value) != KeyOf(Record(batch[l]).value)
    ensures Reconcile(store, None, batch) == Success(Staged(store + Records(batch), |batch| > 0))
    decreases |batch|
  {
    if |batch| > 0 {
      var q := Record(batch[0]).value;
      var store1 := store + [q];
      assert CandidateDate(batch[0]).Success?;
      var created := CreateFromJson(store, batch[0]);
      assert created.Success? && created.value != store;
      assert created.value == store1;
      var rest := batch[1..];
      forall k | 0 <= k < |rest|
        ensures Record(rest[k]).Success?
        ensures !HasKey(store1, KeyOf(Record(rest[k]).value))
      {
        assert rest[k] == batch[k + 1];
        HasKeyAppend(store, q, KeyOf(Record(rest[k]).value));
      }
      forall k, l | 0 <= k < l < |rest|
        ensures KeyOf(Record(rest[k]).value) != KeyOf(Record(rest[l]).value)
      {
        assert rest[k] == batch[k + 1] && rest[l] == batch[l + 1];
      }
      ReconcileAllNew(store1, rest);
      var staged := Reconcile(store1, None, rest).value;
      assert Reconcile(store, None, batch) == Success(Staged(staged.store, true));
      assert staged.store == store1 + Records(rest);
      var tail := Records(rest);
      assert Records(batch) == [q] + tail;
      AppendAssoc(store, q, tail);
      assert staged.store == store + Records(batch);
    } else {
      assert store + Records(batch) == store;
    }
  }

  lemma AppendAssoc<T>(a: seq<T>, x: T, b: seq<T>)
    ensures (a + [x]) + b == a + ([x] + b)
  {
  }

  /** Candidates that pairwise differ in date, latitude, longitude or
      magnitude reach an empty table: every one of them is added, in order,
      and new data is reported exactly when the batch is not empty. */
  lemma IntoEmpty(cs: seq<Candidate>)
    requires forall k :: 0 <= k < |cs| ==> Dates.ParseSeconds(cs[k].date).Some?
    requires forall k :: 0 <= k < |cs| ==> |cs[k].kind| <= TypeWidth && |cs[k].location| <= PlaceWidth
    requires forall k, l :: 0 <= k < l < |cs| ==>
               (cs[k].date, cs[k].latitude, cs[k].longitude, cs[k].magnitude)
               != (cs[l].date, cs[l].latitude, cs[l].longitude, cs[l].magnitude)
    ensures forall k :: 0 <= k < |cs| ==> Record(ToJson(cs[k])).Success?
    ensures var r := AddEarthquake([], Batch(cs));
            && r.Committed?
            && |r.store| == |cs|
            && (forall k :: 0 <= k < |cs| ==> r.store[k] == Record(ToJson(cs[k])).value)
            && (r.newDataAdded <==> |cs| > 0)
  {
    var b := Batch(cs);
    forall k | 0 <= k < |cs|
      ensures Record(b[k]).Success? && FitsColumns(Record(b[k]).value)
    {
      ScrapedRecord(cs[k]);
    }
    forall k, l | 0 <= k < l < |b|
      ensures KeyOf(Record(b[k]).value) != KeyOf(Record(b[l]).value)
    {
      DistinctKeys(cs[k], cs[l]);
    }
    EmptyTableCommits(b);
  }

  /** An empty table takes a batch of complete, fitting candidates with
      pairwise distinct keys as it is. */
  lemma EmptyTableCommits(b: seq<Json>)
    requires forall k :: 0 <= k < |b| ==> Record(b[k]).Success? && FitsColumns(Record(b[k]).value)
    requires forall k, l :: 0 <= k < l < |b| ==>
               KeyOf(Record(b[k]).value) != KeyOf(Record(b[l]).value)
    ensures AddEarthquake([], b) == Committed(Records(b), |b| > 0)
  {
    var rs := Records(b);
    assert Watermark([]) == None;
    assert Reconcile([], None, b) == Success(Staged(rs, |b| > 0)) by {
      ReconcileAllNew([], b);
      assert [] + rs == rs;
    }
    AddEarthquakeCommitsWellFormed([], b);
  }

  /** Scraped candidates that differ in date, latitude, longitude or
      magnitude have different lookup keys. */
  lemma DistinctKeys(c: Candidate, d: Candidate)
    requires Dates.ParseSeconds(c.date).Some? && Dates.ParseSeconds(d.date).Some?
    requires (c.date, c.latitude, c.longitude, c.magnitude) != (d.date, d.latitude, d.longitude, d.magnitude)
    ensures Record(ToJson(c)).Success? && Record(ToJson(d)).Success?
    ensures KeyOf(Record(ToJson(c)).value) != KeyOf(Record(ToJson(d)).value)
  {
    ScrapedRecord(c);
    ScrapedRecord(d);
    if Dates.ParseSeconds(c.date).value == Dates.ParseSeconds(d.date).value {
      Dates.ParseSecondsInjective(c.date, d.date);
    }
  }

  /** A table holding the row of `c0` receives `c0` again together with a
      later candidate `c1`: the repeat is skipped by the watermark, the
      later one is added, and new data is reported. */
  lemma RepeatAndNew(c0: Candidate, c1: Candidate)
    requires Dates.ParseSeconds(c0.date).Some? && Dates.ParseSeconds(c1.date).Some?
    requires Dates.ParseSeconds(c0.date).value < Dates.ParseSeconds(c1.date).value
    requires |c1.kind| <= TypeWidth && |c1.location| <= PlaceWidth
    ensures var q0, q1 := Record(ToJson(c0)).value, Record(ToJson(c1)).value;
            AddEarthquake([q0], Batch([c0, c1])) == Committed([q0, q1], true)
  {
    ScrapedRecord(c0);
    ScrapedRecord(c1);
    var q0, q1 := Record(ToJson(c0)).value, Record(ToJson(c1)).value;
    var b := Batch([c0, c1]);
    var w := Watermark([q0]);
    assert w == Some(q0.date);
    // The repeat is no newer than the watermark and is skipped outright.
    assert CandidateDate(b[0]) == Success(q0.date);
    assert Reconcile([q0], w, b) == Reconcile([q0], w, b[1..]);
    // The later candidate passes and is not yet stored.
    var rest := b[1..];
    assert rest == [ToJson(c1)];
    assert CandidateDate(rest[0]) == Success(q1.date);
    HasKeyAppend([], q0, KeyOf(q1));
    assert !HasKey([q0], KeyOf(q1));
    assert CandidateKey(rest[0]) == Success(KeyOf(q1));
    assert Record(rest[0]) == Success(q1);
    var created := CreateFromJson([q0], rest[0]);
    assert created.Success?;
    assert created.value != [q0];
    assert created.value == [q0] + [q1] == [q0, q1];
    assert Reconcile([q0, q1], w, rest[1..]) == Success(Staged([q0, q1], false));
    assert Reconcile([q0], w, b) == Success(Staged([q0, q1], true));
    assert FitsColumns(q1);
  }
}

=== FILE: scraper.dfy ===
/** `Scraper.fetch_quake_data` after the HTTP request: the parsed table is
    given as its rows, each row the text of its `td` cells. */
module Scraper {
  import opened Results
  import opened Text
  import opened Payload

  /** The HTTP response: whether it was ok, and the rows of its table. */
  datatype Response = Response(ok: bool, rows: seq<seq<string>>)

  /** An `IndexError` from a row with fewer than seven cells; `row` is its
      position in the table, the header being row 0. */
  datatype FetchError = ShortRow(row: nat)

  /** Strips every cell of a row. */
  function TrimAll(cells: seq<string>): (r: seq<string>)
    ensures |r| == |cells|
    ensures forall k :: 0 <= k < |cells| ==> r[k] == Trim(cells[k])
  {
    if |cells| == 0 then [] else [Trim(cells[0])] + TrimAll(cells[1..])
  }

  /** The dictionary built for one row of at least seven cells. */
  function RowCandidate(row: seq<string>): (c: Candidate)
    requires |row| >= 7
  {
    var t := TrimAll(row[..7]);
    Candidate(t[0], t[1], t[2], t[3], t[4], t[5], t[6])
  }

  /** Each field of a row's candidate is the stripped text of the cell in
      the same column. */
  lemma RowCandidateFields(row: seq<string>)
    requires |row| >= 7
    ensures forall k :: 0 <= k < 7 ==> Fields(RowCandidate(row))[k] == Trim(row[k])
  {
  }

  /** Maps the table rows from position `from` on to candidates. */
  function MapRows(rows: seq<seq<string>>, from: nat): (r: Result<seq<Candidate>, FetchError>)
    requires from <= |rows|
    ensures r.Success? ==> forall i :: from <= i < |rows| ==> |rows[i]| >= 7
    ensures r.Success? ==> |r.value| == |rows| - from
    ensures r.Success? ==> forall i :: 0 <= i < |r.value| ==>
                             r.value[i] == RowCandidate(rows[from + i])
    decreases |rows| - from
  {
    if from == |rows| then
      Success([])
    else
      var row := rows[from];
      if |row| < 7 then
        Failure(ShortRow(from))
      else
        match MapRows(rows, from + 1)
        case Failure(e) => Failure(e)
        case Success(rest) =>
          ConsCandidates(rows, from, rest);
          Success([RowCandidate(row)] + rest)
  }

  /** Putting the candidate of row `from` in front of the candidates of the
      rows after it gives one candidate per row from `from` on, in order. */
  lemma ConsCandidates(rows: seq<seq<string>>, from: nat, rest: seq<Candidate>)
    requires from < |rows|
    requires forall i :: from <= i < |rows| ==> |rows[i]| >= 7
    requires |rest| == |rows| - from - 1
    requires forall i :: 0 <= i < |rest| ==> rest[i] == RowCandidate(rows[from + 1 + i])
    ensures forall i :: 0 <= i < |rest| + 1 ==>
              ([RowCandidate(rows[from])] + rest)[i] == RowCandidate(rows[from + i])
  {
    var cs := [RowCandidate(rows[from])] + rest;
    forall i | 0 <= i < |cs|
      ensures cs[i] == RowCandidate(rows[from + i])
    {
      if i > 0 {
        assert cs[i] == rest[i - 1];
      }
    }
  }

  /** A failed mapping names the first short row at or after `from`. */
  lemma {:induction false} MapRowsFailsAtFirstShort(rows: seq<seq<string>>, from: nat)
    requires from <= |rows|
    requires MapRows(rows, from).Failure?
    ensures var e := MapRows(rows, from).error;
            && from <= e.row < |rows|
            && |rows[e.row]| < 7
            && forall i :: from <= i < e.row ==> |rows[i]| >= 7
    decreases |rows| - from
  {
    if |rows[from]| >= 7 {
      MapRowsFailsAtFirstShort(rows, from + 1);
    }
  }

  /** `fetch_quake_data`: `None` for a response that is not ok; otherwise
      one candidate per row after the header, in table order, each field
      the trimmed text of the cell in the same column; a row with fewer
      than seven cells fails the whole fetch. */
  function FetchQuakeData(response: Response): (r: Result<Option<seq<Candidate>>, FetchError>)
    ensures !response.ok ==> r == Success(None)
    ensures response.ok ==> (r.Failure? <==> exists i :: 1 <= i < |response.rows| && |response.rows[i]| < 7)
    ensures response.ok && r.Success? ==> r.value.Some?
    ensures r.Failure? ==> && 1 <= r.error.row < |response.rows|
                           && |response.rows[r.error.row]| < 7
                           && forall i :: 1 <= i < r.error.row ==> |response.rows[i]| >= 7
    ensures r.Success? && r.value.Some? ==>
              && response.ok
              && |r.value.value| == (if |response.rows| == 0 then 0 else |response.rows| - 1)
              && forall i, k :: 0 <= i < |r.value.value| && 0 <= k < 7 ==>
                   Fields(r.value.value[i])[k] == Trim(response.rows[i + 1][k])
  {
    if !response.ok then
      Success(None)
    else if |response.rows| == 0 then
      Success(Some([]))
    else
      var mapped := MapRows(response.rows, 1);
      if mapped.Failure? then
        MapRowsFailsAtFirstShort(response.rows, 1);
        Failure(mapped.error)
      else
        var candidates := mapped.value;
        assert forall i, k :: 0 <= i < |candidates| && 0 <= k < 7 ==>
                 Fields(candidates[i])[k] == Trim(response.rows[i + 1][k]) by {
          forall i, k | 0 <= i < |candidates| && 0 <= k < 7
            ensures Fields(candidates[i])[k] == Trim(response.rows[i + 1][k])
          {
            assert candidates[i] == RowCandidate(response.rows[1 + i]);
            RowCandidateFields(response.rows[1 + i]);
          }
        }
        Success(Some(candidates))
  }

  /** No field of a fetched candidate starts or ends with whitespace. */
  lemma FetchedFieldsTrimmed(response: Response)
    requires FetchQuakeData(response).Success? && FetchQuakeData(response).value.Some?
    ensures var cs := FetchQuakeData(response).value.value;
            forall i, k :: 0 <= i < |cs| && 0 <= k < 7 ==> IsTrimmed(Fields(cs[i])[k])
  {
  }
}

=== FILE: store.dfy ===
/** The `Earthquakes` table as an in-memory sequence of rows in insertion
    order, and the queries the ingestion and freshness logic make of it. */
module Store {
  import opened Results

  /** One stored earthquake. `date` is in seconds (see module `Dates`);
      the numeric columns are kept as the values the server was given and
      are only ever compared for equality. */
  datatype Quake = Quake(
    date: int,
    latitude: string,
    longitude: string,
    depth: string,
    kind: string,
    magnitude: string,
    place: string)

  /** The identity used to detect an already recorded earthquake. */
  datatype QuakeKey = QuakeKey(date: int, latitude: string, longitude: string, magnitude: string)

  function KeyOf(q: Quake): QuakeKey {
    QuakeKey(q.date, q.latitude, q.longitude, q.magnitude)
  }

  /** Some stored row has key `k`: the `filter_by(...).first()` lookup found a row. */
  predicate HasKey(store: seq<Quake>, k: QuakeKey) {
    exists i :: 0 <= i < |store| && KeyOf(store[i]) == k
  }

  /** Appending a row adds exactly its key to the keys present. */
  lemma HasKeyAppend(store: seq<Quake>, q: Quake, k: QuakeKey)
    ensures HasKey(store + [q], k) <==> HasKey(store, k) || KeyOf(q) == k
  {
    if HasKey(store, k) {
      var i :| 0 <= i < |store| && KeyOf(store[i]) == k;
      assert (store + [q])[i] == store[i];
    }
    if KeyOf(q) == k {
      assert (store + [q])[|store|] == q;
    }
  }

  /** No two rows share a key. */
  predicate NoDuplicateKeys(store: seq<Quake>) {
    forall i, j :: 0 <= i < j < |store| ==> KeyOf(store[i]) != KeyOf(store[j])
  }

  /** `get_latest_earthquake`: a row of greatest date, `None` for an empty
      table. Among rows sharing the greatest date the earliest stored one
      is chosen; the database leaves that choice open. */
  function Latest(store: seq<Quake>): (r: Option<Quake>)
    ensures r.None? <==> |store| == 0
    ensures r.Some? ==> r.value in store
    ensures r.Some? ==> forall q :: q in store ==> q.date <= r.value.date
  {
    if |store| == 0 then None
    else
      var rest := Latest(store[..|store| - 1]);
      var last := store[|store| - 1];
      assert store == store[..|store| - 1] + [last];
      if rest.None? || last.date > rest.value.date then Some(last) else rest
  }

  /** The watermark: the date of the latest row, if any. */
  function Watermark(store: seq<Quake>): (r: Option<int>)
    ensures r.None? <==> |store| == 0
    ensures r.Some? ==> (exists q :: q in store && q.date == r.value)
                        && forall q :: q in store ==> q.date <= r.value
  {
    match Latest(store)
    case None => None
    case Some(q) => Some(q.date)
  }

  /** Appending rows never lowers the watermark. */
  lemma WatermarkMonotone(store: seq<Quake>, store': seq<Quake>)
    requires store <= store'
    ensures Watermark(store).Some? ==> Watermark(store').Some?
                                       && Watermark(store).value <= Watermark(store').value
  {
    if Watermark(store).Some? {
      var q :| q in store && q.date == Watermark(store).value;
      assert q in store';
    }
  }
}

=== FILE: text.dfy ===
/** Whitespace trimming as done by Python's `str.strip()` with no argument. */
module Text {

  /** The characters for which Python's `str.isspace()` holds: the ASCII
      controls TAB through CR and FS through US, SPACE, NEL, NO-BREAK
      SPACE, OGHAM SPACE MARK, EN QUAD through HAIR SPACE, LINE and
      PARAGRAPH SEPARATOR, NARROW NO-BREAK SPACE, MEDIUM MATHEMATICAL SPACE
      and IDEOGRAPHIC SPACE. */
  predicate IsSpace(c: char) {
    || '\U{9}' <= c <= '\U{D}'
    || '\U{1C}' <= c <= '\U{20}'
    || c == '\U{85}' || c == '\U{A0}' || c == '\U{1680}'
    || '\U{2000}' <= c <= '\U{200A}'
    || c == '\U{2028}' || c == '\U{2029}' || c == '\U{202F}' || c == '\U{205F}'
    || c == '\U{3000}'
  }

  /** Every character of `s` is whitespace. */
  predicate AllSpace(s: string) {
    forall k :: 0 <= k < |s| ==> IsSpace(s[k])
  }

  /** `s` neither starts nor ends with whitespace. */
  predicate IsTrimmed(s: string) {
    |s| == 0 || (!IsSpace(s[0]) && !IsSpace(s[|s| - 1]))
  }

  /** `str.strip()`: removes whitespace from both ends, one character at a
      time. */
  function Trim(s: string): (r: string)
    ensures IsTrimmed(r)
    ensures |r| <= |s|
    decreases |s|
  {
    if |s| > 0 && IsSpace(s[0]) then Trim(s[1..])
    else if |s| > 0 && IsSpace(s[|s| - 1]) then Trim(s[..|s| - 1])
    else s
  }

  /** What `Trim` removes is whitespace only: its result is the slice of
      `s` starting at `i`, between a whitespace prefix and a whitespace
      suffix. */
  lemma {:induction false} TrimIsSlice(s: string) returns (i: int)
    ensures 0 <= i <= |s| - |Trim(s)|
    ensures Trim(s) == s[i..i + |Trim(s)|]
    ensures AllSpace(s[..i]) && AllSpace(s[i + |Trim(s)|..])
    decreases |s|
  {
    if |s| > 0 && IsSpace(s[0]) {
      var t := s[1..];
      var j := TrimIsSlice(t);
      assert Trim(s) == Trim(t);
      SliceAfterLeading(s, Trim(t), j);
      i := j + 1;
    } else if |s| > 0 && IsSpace(s[|s| - 1]) {
      var t := s[..|s| - 1];
      i := TrimIsSlice(t);
      assert Trim(s) == Trim(t);
      SliceBeforeTrailing(s, Trim(t), i);
    } else {
      i := 0;
      assert s[..0] == [] && s[|s|..] == [] && s[0..|s|] == s;
    }
  }

  /** A whitespace-framed slice of `s[1..]` is one of `s` when `s` starts
      with whitespace. */
  lemma SliceAfterLeading(s: string, r: string, j: int)
    requires |s| > 0 && IsSpace(s[0])
    requires 0 <= j <= |s| - 1 - |r| && r == s[1..][j..j + |r|]
    requires AllSpace(s[1..][..j]) && AllSpace(s[1..][j + |r|..])
    ensures r == s[j + 1..j + 1 + |r|]
    ensures AllSpace(s[..j + 1]) && AllSpace(s[j + 1 + |r|..])
  {
    assert s[1..][j..j + |r|] == s[j + 1..j + 1 + |r|];
    assert s[j + 1 + |r|..] == s[1..][j + |r|..];
    var p := s[..j + 1];
    forall k | 0 <= k < |p| ensures IsSpace(p[k]) {
      if k > 0 { assert p[k] == s[1..][..j][k - 1]; }
    }
  }

  /** A whitespace-framed slice of `s[..|s| - 1]` is one of `s` when `s`
      ends with whitespace. */
  lemma SliceBeforeTrailing(s: string, r: string, i: int)
    requires |s| > 0 && IsSpace(s[|s| - 1])
    requires 0 <= i <= |s| - 1 - |r| && r == s[..|s| - 1][i..i + |r|]
    requires AllSpace(s[..|s| - 1][..i]) && AllSpace(s[..|s| - 1][i + |r|..])
    ensures r == s[i..i + |r|]
    ensures AllSpace(s[..i]) && AllSpace(s[i + |r|..])
  {
    assert s[..|s| - 1][i..i + |r|] == s[i..i + |r|];
    assert s[..i] == s[..|s| - 1][..i];
    var u := s[i + |r|..];
    forall k | 0 <= k < |u| ensures IsSpace(u[k]) {
      if k < |u| - 1 { assert u[k] == s[..|s| - 1][i + |r|..][k]; }
    }
  }

  /** Trimming is determined by its contract: any split of `s` into a
      whitespace prefix, a trimmed middle and a whitespace suffix yields
      exactly `Trim(s)` as the middle. */
  lemma {:induction false} TrimUnique(s: string, i: int, j: int)
    requires 0 <= i <= j <= |s|
    requires AllSpace(s[..i]) && AllSpace(s[j..]) && IsTrimmed(s[i..j])
    ensures Trim(s) == s[i..j]
    decreases |s|
  {
    if |s| > 0 && IsSpace(s[0]) {
      var t := s[1..];
      if i > 0 {
        assert t[..i - 1] == s[1..i];
        assert AllSpace(t[..i - 1]) by {
          var p := t[..i - 1];
          forall k | 0 <= k < |p| ensures IsSpace(p[k]) {
            assert p[k] == s[..i][k + 1];
          }
        }
        assert t[j - 1..] == s[j..];
        assert t[i - 1..j - 1] == s[i..j];
        TrimUnique(t, i - 1, j - 1);
      } else {
        // The middle cannot start with whitespace, so it is empty.
        assert j == 0;
        assert forall k :: 0 <= k < |t| ==> t[k] == s[j..][k + 1];
        assert t[..0] == [] && t[0..] == t;
        TrimUnique(t, 0, 0);
      }
    } else if |s| > 0 && IsSpace(s[|s| - 1]) {
      var t := s[..|s| - 1];
      assert j < |s|;
      assert t[..i] == s[..i];
      assert t[j..] == s[j..|s| - 1];
      assert forall k :: 0 <= k < |t| - j ==> t[j..][k] == s[j..][k];
      assert t[i..j] == s[i..j];
      TrimUnique(t, i, j);
    } else {
      assert i == 0;
      assert j == |s|;
      assert s[0..|s|] == s;
    }
  }

  /** Stripping twice changes nothing. */
  lemma TrimIdempotent(s: string)
    ensures Trim(Trim(s)) == Trim(s)
  {
    var t := Trim(s);
    assert t[..0] == [] && t[|t|..] == [];
    assert t[0..|t|] == t;
    TrimUnique(t, 0, |t|);
  }
}
